=== FILE: README.md ===
# Firestarter UNO RURP shield: register bus and mode switching in Dafny

This project models the hardware abstraction layer of the Firestarter EPROM
programmer on its Arduino UNO "RURP" shield (`src/uno_rurp_shield.cpp`).
The microcontroller drives a wide address and control interface through three
write-only external latches:

- the low address byte;
- the high address byte;
- the control register.

All three share one 8-bit data port (PORTD). Each latch captures the bus when
its strobe bit on PORTB is pulsed. The firmware keeps a shadow copy of every
latch and skips writes that would not change it. The same data pins also
carry the host serial link, so the firmware switches between communication
mode (host link open, DDRD bit 0 released) and programmer mode (link closed,
the pin driving).

The model is a functional state machine. A `Shield` record holds:

- the three shadows;
- PORTB, PORTD and DDRD;
- the `comMode` flag;
- the detected revision;
- the loaded configuration.

Every operation is a pure function. Operations that change the shield return
the next `Shield`, together with an event trace when they touch the bus or
the host link; reads return a value, and logging returns only events. The
events are `Drive(byte)`, `Strobe(latch)`, `Settle`, `LinkOpened`,
`LinkClosed` and `HostLog(kind, msg)`.

Modules, leaf first:

- `Bits` (`bits.dfy`): 8-bit bytes and the register value type, 8-bit
  truncation, and setting or clearing a mask.
- `Options` (`bits.dfy`): the optional value a `switch` without a match
  falls through to.
- `Board` (`board.dfy`): strobe masks, the VPP-enable bit, revision
  constants, latch roles, the selector `switch`, the revision-dependent
  control translation, and the VPP switch-off test.
- `ShieldState` (`state.dfy`): the state record, events, shadows, and strobe
  counting.
- `RegisterBus` (`bus.dfy`): `rurp_write_to_register`,
  `rurp_read_from_register`, `rurp_write_data_buffer`,
  `rurp_set_data_as_output/input` and `rurp_set_control_pin`.
- `ModeControl` (`mode.dfy`): `rurp_set_communication_mode`,
  `rurp_set_programmer_mode`, and the `comMode` gate of `rurp_log`.
- `Revision` (`revision.dfy`): boot-time revision detection and
  `rurp_get_hardware_revision`.
- `Boot` (`boot.dfy`): the reset sequence and the bus part of `rurp_setup`.
- `Latches` (`latches.dfy`): the external latch chain as an observer of the
  event trace. It proves that the shadows describe what the latches
  physically hold, from the reset on, across any later session of bus
  operations, whatever the latches held at power-on.
- `BusProperties` (`properties.dfy`): properties that relate several calls.

Modelling choices:

- `register_t` is defined in a header that is not part of this model. It is
  taken as a 16-bit unsigned value (`Word`). The address shadows are 8-bit,
  so their skip test and stored value use the low byte. The control shadow
  keeps the full value.
- The type of `rurp_config.hardware_revision` is also defined in that header.
  It is taken as an 8-bit unsigned value, so the source's override test
  `< 0xFF` is the same as "not the unset value 0xFF".
- The header constants are not part of this model either. The values chosen
  for them are distinct single bits: strobe masks `0x01`, `0x02` and `0x04`,
  and `P1_VPP_ENABLE` `0x0008`. Revisions 0, 1 and 2 are numbered `0..2`. The
  proofs use only the facts that the masks are distinct single bits, that
  `P1_VPP_ENABLE` is a single bit, and that the revision numbers 0, 1, 2 and the unknown value -1 are
  pairwise distinct.
- `rurp_map_ctrl_reg_to_hardware_revision` lives in another file and is
  modelled as a parameter `ControlMapping`. `Direct` is a build without
  `HARDWARE_REVISION`. `Remapped(f)` carries the board's translation, left
  uninterpreted.
- The revision probes `digitalRead` and `analogRead`, and the idle PORTB
  value, are parameters of `Setup`. `load_config` is replaced by the
  configuration record it would load.

## Model

| member | source | states |
|---|---|---|
| Bits.Low8 | src/uno_rurp_shield.cpp:156 | the `(uint8_t)` conversion keeps exactly the low byte: widened again and combined with the dropped high byte it gives back the value, and a value below 0x100 survives unchanged |
| Bits.Raise | src/uno_rurp_shield.cpp:183 | or-ing the strobe mask into PORTB sets every bit of the mask and keeps every other bit |
| Bits.Lower | src/uno_rurp_shield.cpp:185 | and-ing PORTB with the inverted mask clears every bit of the mask and keeps every other bit |
| Board.RoleOf | src/uno_rurp_shield.cpp:154-181 | the selector `switch` picks a latch exactly when the selector equals that latch's strobe mask, and falls to the default case exactly when it equals none |
| Board.VppFalling | src/uno_rurp_shield.cpp:171-173 | the comparison `(old & P1_VPP_ENABLE) > (new & P1_VPP_ENABLE)` holds exactly when the VPP enable bit is set in the old control value and clear in the new one |
| Board.Physical | src/uno_rurp_shield.cpp:175-177 | without revision support the control byte is latched untranslated |
| RegisterBus.SetDataAsOutput | src/uno_rurp_shield.cpp:143-145 | every data pin becomes an output and nothing else changes |
| RegisterBus.SetDataAsInput | src/uno_rurp_shield.cpp:147-149 | every data pin becomes an input and nothing else changes |
| RegisterBus.WriteDataBuffer | src/uno_rurp_shield.cpp:215-218 | the data pins drive and PORTD holds the byte; only DDRD and PORTD change; the trace is one `Drive` of that byte |
| RegisterBus.SetControlPin | src/uno_rurp_shield.cpp:205-212 | a non-zero state raises the pin bits of PORTB and zero lowers them; other PORTB bits and the rest of the state are unchanged |
| RegisterBus.Pulse | src/uno_rurp_shield.cpp:183-185 | after the set-then-clear pulse the strobe bits are low and every other PORTB bit is as before |
| RegisterBus.Latch | src/uno_rurp_shield.cpp:174-190 | a write that is not skipped changes only the target shadow, which stores the logical value; DDRD becomes 0xFF and PORTD holds the truncated, possibly translated byte; the strobe bit ends low and other PORTB bits are unchanged; mode, revision and configuration stay; the trace drives then strobes, strobes only that latch and only once, and settles exactly on a VPP switch-off; it holds no other event (two events, three with the settle) |
| RegisterBus.WriteRegister | src/uno_rurp_shield.cpp:152-191 | an unknown selector changes nothing; a known latch emits nothing exactly when its shadow already holds the value (low byte for addresses, full value for control), and then the state is unchanged; otherwise the write is effective as described for `Latch`; the trace of an effective write has two events, three with the settle, and nothing else |
| RegisterBus.WriteEffective | src/uno_rurp_shield.cpp:155-178 | writing a value that a latch's shadow does not hold is always an effective write of that latch |
| RegisterBus.ReadRegister | src/uno_rurp_shield.cpp:193-203 | reads return the selected latch's shadow, zero-extended for the address bytes, and 0 for an unknown selector |
| ModeControl.SetCommunicationMode | src/uno_rurp_shield.cpp:78-89 | the flag is set and DDRD bit 0 is cleared; the other DDRD bits and the rest of the state are unchanged; the host link is opened |
| ModeControl.SetProgrammerMode | src/uno_rurp_shield.cpp:91-96 | the flag is cleared and DDRD bit 0 is set; the other DDRD bits and the rest of the state are unchanged; the host link is closed |
| ModeControl.Log | src/uno_rurp_shield.cpp:115-123 | a log line reaches the host if and only if the communication flag is set |
| ModeControl.ProgrammerThenCommunication | src/uno_rurp_shield.cpp:78-96 | switching to programmer mode and back restores any state in which the host owned the link |
| ModeControl.CommunicationThenProgrammer | src/uno_rurp_shield.cpp:78-96 | switching to communication mode and back restores any state in which the bus owned the link |
| ModeControl.LogFollowsMode | src/uno_rurp_shield.cpp:88-122 | after entering communication mode a log line is sent; after entering programmer mode none is |
| Revision.DetectRevision | src/uno_rurp_shield.cpp:48-60 | revision 2 if and only if the digital probe reads 0; revision 1 if and only if it reads 1 and the analog probe is below 1000; revision 0 if and only if it reads 1 and the analog probe is at least 1000; unknown (-1) if and only if it reads anything else |
| Revision.GetHardwareRevision | src/uno_rurp_shield.cpp:126-135 | a configured revision below 0xFF is reported as is; the unset value 0xFF reports the detected revision |
| Revision.OverridePrecedence | src/uno_rurp_shield.cpp:126-131 | with an override configured, the reported revision does not depend on detection; without one, it equals whatever detection found |
| Revision.UnloadedConfigReportsZero | src/uno_rurp_shield.cpp:126-131 | while the configuration global (line 20) is still zero-initialised, before `load_config`, the override test sees 0 and the reported revision is 0 whatever was detected |
| Boot.ResetWritesEffective | src/uno_rurp_shield.cpp:67-72 | because each shadow holds the sentinel 0xFF, none of the three writes of zero is skipped |
| Boot.ResetShadows | src/uno_rurp_shield.cpp:67-72 | after the reset sequence every shadow is zero; each latch was strobed exactly once; all strobe bits are low with other PORTB bits unchanged; the bus drives the control byte for zero |
| Boot.Setup | src/uno_rurp_shield.cpp:38-76 | after setup every register reads 0; each latch was strobed once; the strobe bits are low over the idle PORTB value; the host owns the link and DDRD is 0xFE; the revision is the detected one; the configuration is the loaded one, which decides the reported revision; the last event opens the link |
| Latches.WriteKeepsCoherent | src/uno_rurp_shield.cpp:152-191 | a write keeps every shadow equal to what its physical latch holds; the control latch holds the translated low byte of the logical control shadow |
| Latches.ResetMakesCoherent | src/uno_rurp_shield.cpp:67-72 | after the reset sequence every shadow describes its latch, whatever the latches held before |
| Latches.RunKeepsCoherent | src/uno_rurp_shield.cpp:143-218 | any sequence of register writes, data-bus writes, direction changes to output or input and mode switches keeps the shadows describing the latches |
| Latches.BootThenSessionCoherent | src/uno_rurp_shield.cpp:32-34 | from the reset on, across any later session of register writes, data-bus writes, direction changes to output or input and mode switches (no `rurp_set_control_pin`), the shadow variables equal the values last physically latched |
| Latches.SessionRevision | src/uno_rurp_shield.cpp:126-135 | with detection as at lines 48-60, after setup and any later session, the getter `PhysicalRevision` still returns what detection found at boot, and the reported revision is the loaded override when one is set and the detected revision otherwise |
| BusProperties.RepeatedWriteStrobesOnce | src/uno_rurp_shield.cpp:155-170 | writing the same value twice makes the second write a no-op; the pair strobes the latch exactly once if the first write was effective and never otherwise, and strobes no other latch |
| BusProperties.WriteMakesShadowHold | src/uno_rurp_shield.cpp:159-174 | after any write to a known latch its shadow holds the written value, so the skip test holds |
| BusProperties.ReadAfterWrite | src/uno_rurp_shield.cpp:193-203 | a read after a write returns the written value, truncated to 8 bits for an address latch, so it gives back the value itself exactly when it is a control write or the value fits in 8 bits; the other latches read as before |
| BusProperties.UnknownSelector | src/uno_rurp_shield.cpp:179-180 | with a selector that names no latch, a write changes nothing and emits nothing, and a read returns 0 |
| BusProperties.SettleExactlyOnVppOff | src/uno_rurp_shield.cpp:187-190 | the settle wait happens exactly for a control write of a new value that switches VPP from asserted to de-asserted |
| BusProperties.SkipIgnoresMapping | src/uno_rurp_shield.cpp:167-177 | whether a write is skipped, and the shadows it leaves, do not depend on the revision translation |
| BusProperties.WriteInCommunicationMode | src/uno_rurp_shield.cpp:215-218 | an effective write while the host owns the link makes DDRD bit 0 an output while the communication flag stays set; nothing guards against this |
| BusProperties.ControlPinLastWins | src/uno_rurp_shield.cpp:205-212 | setting a control pin twice leaves the state the second call alone would leave |
| BusProperties.ControlPinKeepsShadows | src/uno_rurp_shield.cpp:205-212 | changing a control pin leaves every shadow and the data port unchanged |

## Left out

- The voltage subsystem (`rurp_read_vcc`, `rurp_read_voltage`, `rurp_get_voltage_average`, lines 224-267) is left out. It is double-precision arithmetic over raw ADC register reads.
- The serial pass-throughs `rurp_communication_available/read/read_bytes/write` (lines 98-113) are left out. So are `Serial.begin/end/flush` and the `while (!Serial)` wait. These are I/O on a library outside this model; opening and closing the link appear only as `LinkOpened`/`LinkClosed` events.
- `SERIAL_DEBUG` logging (`debug_setup`, `log_debug`, `debug_buf`) is left out. It is debug I/O on a second serial port, so `Log` models only the host side of `rurp_log`.
- `load_config` and `rurp_get_config` are left out. Setup receives the configuration record `load_config` would produce. Once setup installs it, the configuration is fixed: the model has no way to change it through the pointer `rurp_get_config` hands out. The divider resistances are omitted because only the voltage subsystem reads them.
- `rurp_read_data_buffer` (reading PIND) is left out. It returns whatever the external circuit drives, which is an input of the environment.
- `pinMode` calls, the DDRB assignment and the idle PORTB constant (lines 44-45, 61, 64, 66) are left out. These are pin configuration from headers outside this model; the idle PORTB value is a parameter of `Setup`.
- Timing (`delayMicroseconds(4)`) is modelled only as a `Settle` event, not as time.
- Board.Physical: the translation is one fixed function for the whole session. If the firmware's translation consults the reported revision, it can change when `load_config` runs, which happens after the reset writes (lines 70-73). The model does not capture a translation that changes there.
- Latches.BootThenSessionCoherent: the sessions after the reset do not include `rurp_set_control_pin`, for the reason given for `RunKeepsCoherent` below.
- Latches.RunKeepsCoherent: the sessions do not include `rurp_set_control_pin`. That call could raise a latch's strobe bit directly, and the model does not say what the latch captures then.
- The mode-exclusivity discipline is not enforced, as in the source. `BusProperties.WriteInCommunicationMode` shows the conflicting state a caller can reach.

=== FILE: bits.dfy ===
/** Fixed-width values of the AVR shield: 8-bit ports and latches, and the
    wider logical register value (`register_t`), together with the
    truncation and single-mask bit operations the firmware performs. */
module Bits {

  /** An 8-bit port, latch or `uint8_t` value. */
  type Byte = bv8

  /** A logical register value (`register_t`), taken as 16 bits wide. */
  type Word = bv16

  /** Zero-extension of a byte to a register value. */
  function Widen(b: Byte): (w: Word)
    ensures w <= 0xFF
  {
    b as Word
  }

  /** The implicit `(uint8_t)` conversion: keeps the low byte of the value
      and drops the high byte. */
  function Low8(w: Word): (b: Byte)
    ensures Widen(b) | (w & 0xFF00) == w
    ensures w <= 0xFF ==> Widen(b) == w
  {
    (w & 0xFF) as Byte
  }

  /** `x |= mask`: every bit of the mask is set, every other bit is kept. */
  function Raise(x: Byte, mask: Byte): (r: Byte)
    ensures r & mask == mask
    ensures r & !mask == x & !mask
  {
    x | mask
  }

  /** `x &= ~mask`: every bit of the mask is cleared, every other bit is kept. */
  function Lower(x: Byte, mask: Byte): (r: Byte)
    ensures r & mask == 0
    ensures r & !mask == x & !mask
  {
    x & !mask
  }

  /** Zero-extension loses nothing. */
  lemma WidenInjective(a: Byte, b: Byte)
    ensures Widen(a) == Widen(b) <==> a == b
  {
  }

  /** A value survives truncation unchanged exactly when its high byte is zero. */
  lemma Low8Lossless(w: Word)
    ensures Widen(Low8(w)) == w <==> w <= 0xFF
  {
  }
}

/** The optional value used where the firmware falls through a `switch`. */
module Options {

  datatype Option<+T> = None | Some(value: T)
}

=== FILE: board.dfy ===
/** The shield's fixed hardware vocabulary: the three latch strobe lines on
    PORTB, the high-voltage enable bit of the control register, the hardware
    revision numbers, and the revision-dependent translation of control
    bytes. The header that defines these constants is not part of this model;
    the values below stand in for it. The proofs rely only on the strobe
    masks being distinct single bits, on the VPP mask being a single bit, and
    on the revision numbers and the unknown value being pairwise distinct. */
module Board {
  import opened Bits
  import opened Options

  /** PORTB strobe bit of the low address byte latch. */
  const LEAST_SIGNIFICANT_BYTE: Byte := 0x01
  /** PORTB strobe bit of the high address byte latch. */
  const MOST_SIGNIFICANT_BYTE: Byte := 0x02
  /** PORTB strobe bit of the control register latch. */
  const CONTROL_REGISTER: Byte := 0x04

  /** Control register bit that enables programming voltage on pin 1. */
  const P1_VPP_ENABLE: Word := 0x0008

  /** Hardware revision numbers reported by detection. */
  const REVISION_0: int := 0
  const REVISION_1: int := 1
  const REVISION_2: int := 2
  /** Detection result for a probe value that matches no known revision. */
  const UNKNOWN_REVISION: int := -1
  /** Initial value of the detected revision before boot-time detection. */
  const BOOT_REVISION: int := 5
  /** Configured revision value meaning "no override, use the detected one". */
  const REVISION_UNSET: Byte := 0xFF
  /** Analog probe reading below which a high digital probe means revision 1. */
  const REVISION_1_THRESHOLD: int := 1000

  /** Shadow value meaning "never written", used to force the first write. */
  const SENTINEL: Byte := 0xFF

  /** The three write-only latches multiplexed onto the data bus. */
  datatype Role = AddressLow | AddressHigh | Control

  predicate SingleBit(m: Byte) {
    m != 0 && m & (m - 1) == 0
  }

  /** The PORTB strobe bit that latches the given register. */
  function Mask(role: Role): (m: Byte)
    ensures SingleBit(m)
  {
    match role
    case AddressLow => LEAST_SIGNIFICANT_BYTE
    case AddressHigh => MOST_SIGNIFICANT_BYTE
    case Control => CONTROL_REGISTER
  }

  /** The `switch (reg)` of the write and read operations: which latch, if
      any, a register selector names. */
  function RoleOf(reg: Byte): (r: Option<Role>)
    ensures forall role: Role :: r == Some(role) <==> reg == Mask(role)
    ensures r == None <==> (forall role: Role :: reg != Mask(role))
  {
    if reg == LEAST_SIGNIFICANT_BYTE then Some(AddressLow)
    else if reg == MOST_SIGNIFICANT_BYTE then Some(AddressHigh)
    else if reg == CONTROL_REGISTER then Some(Control)
    else None
  }

  /** Strobe masks of all three latches together. */
  const STROBE_MASKS: Byte := LEAST_SIGNIFICANT_BYTE | MOST_SIGNIFICANT_BYTE | CONTROL_REGISTER

  /** The translation of a logical control value to the bit pattern of the
      shield's hardware revision. `Direct` is a build without revision
      support; `Remapped` carries the board's translation, whose definition
      lives outside this model. */
  datatype ControlMapping = Direct | Remapped(translate: Word -> Word)

  /** The physical value driven for a logical control value. */
  function Physical(m: ControlMapping, v: Word): (p: Word)
    ensures m.Direct? ==> p == v
  {
    match m
    case Direct => v
    case Remapped(translate) => translate(v)
  }

  /** The firmware's settle test `(old & P1_VPP_ENABLE) > (new & P1_VPP_ENABLE)`:
      true exactly when the VPP enable bit goes from asserted to de-asserted. */
  predicate VppFalling(before: Word, after: Word)
    ensures VppFalling(before, after) <==>
            (before & P1_VPP_ENABLE != 0 && after & P1_VPP_ENABLE == 0)
  {
    (before & P1_VPP_ENABLE) > (after & P1_VPP_ENABLE)
  }
}

=== FILE: boot.dfy ===
/** The bus-related part of `rurp_setup`: revision detection, the forced
    reset of the three latches, installing the loaded configuration, and
    handing the shared pins to the host link. */
module Boot {
  import opened Bits
  import opened Board
  import opened ShieldState
  import opened RegisterBus
  import opened ModeControl
  import opened Revision

  /** All three latches hold zero, each was strobed exactly once, every
      strobe line is low again with the other PORTB bits as before, and the
      bus carries the physical control byte for zero. */
  predicate FreshlyReset(before: Shield, m: ControlMapping, w: Step) {
    && (forall role: Role :: Shadow(w.shield, role) == 0)
    && (forall role: Role :: Strobes(w.trace, role) == 1)
    && w.shield.portB & STROBE_MASKS == 0
    && w.shield.portB & !STROBE_MASKS == before.portB & !STROBE_MASKS
    && w.shield.ddrD == 0xFF
    && w.shield.portD == BusByte(m, Control, 0)
  }

  /** Lowering the three strobe bits one after another leaves all of them
      low and every other bit as it was. */
  lemma LowerEachStrobe(a: Byte, b: Byte, c: Byte, d: Byte)
    requires b & LEAST_SIGNIFICANT_BYTE == 0 && b & !LEAST_SIGNIFICANT_BYTE == a & !LEAST_SIGNIFICANT_BYTE
    requires c & MOST_SIGNIFICANT_BYTE == 0 && c & !MOST_SIGNIFICANT_BYTE == b & !MOST_SIGNIFICANT_BYTE
    requires d & CONTROL_REGISTER == 0 && d & !CONTROL_REGISTER == c & !CONTROL_REGISTER
    ensures d & STROBE_MASKS == 0 && d & !STROBE_MASKS == a & !STROBE_MASKS
  {
  }

  /** The shield with every shadow set to the "never written" sentinel. */
  function Primed(s: Shield): Shield {
    s.(lsb := SENTINEL, msb := SENTINEL, control := Widen(SENTINEL))
  }

  /** The first reset write: zero to the low address latch. */
  function ResetLow(s: Shield, m: ControlMapping): Step {
    WriteRegister(Primed(s), m, LEAST_SIGNIFICANT_BYTE, 0)
  }

  /** The second reset write: zero to the high address latch. */
  function ResetHigh(s: Shield, m: ControlMapping): Step {
    WriteRegister(ResetLow(s, m).shield, m, MOST_SIGNIFICANT_BYTE, 0)
  }

  /** The third reset write: zero to the control latch. */
  function ResetControl(s: Shield, m: ControlMapping): Step {
    WriteRegister(ResetHigh(s, m).shield, m, CONTROL_REGISTER, 0)
  }

  /** None of the three reset writes is skipped: each latch still holds the
      sentinel when zero is written to it. */
  lemma ResetWritesEffective(s: Shield, m: ControlMapping)
    ensures EffectiveWrite(Primed(s), m, AddressLow, 0, ResetLow(s, m))
    ensures EffectiveWrite(ResetLow(s, m).shield, m, AddressHigh, 0, ResetHigh(s, m))
    ensures EffectiveWrite(ResetHigh(s, m).shield, m, Control, 0, ResetControl(s, m))
  {
    var s1 := ResetLow(s, m).shield;
    var s2 := ResetHigh(s, m).shield;
    WriteEffective(Primed(s), m, AddressLow, 0);
    assert Shadow(s1, AddressHigh) == Widen(SENTINEL);
    WidenInjective(s1.msb, SENTINEL);
    WriteEffective(s1, m, AddressHigh, 0);
    assert Shadow(s2, Control) == Shadow(s1, Control) == Widen(SENTINEL);
    WriteEffective(s2, m, Control, 0);
  }

  /** The reset sequence: every shadow is set to the "never written"
      sentinel, then zero is written to each latch. Because zero differs from
      the sentinel, none of the three writes is skipped. */
  function ResetShadows(s: Shield, m: ControlMapping): (w: Step)
    ensures FreshlyReset(s, m, w)
    ensures w.shield.comMode == s.comMode
    ensures w.shield.revision == s.revision
    ensures w.shield.config == s.config
  {
    ResetWritesEffective(s, m);
    ResetSteps(s, m, ResetLow(s, m), ResetHigh(s, m), ResetControl(s, m));
    Step(ResetControl(s, m).shield,
         ResetLow(s, m).trace + ResetHigh(s, m).trace + ResetControl(s, m).trace)
  }

  /** Three effective writes of zero, one per latch, reset the bus. */
  lemma ResetSteps(s: Shield, m: ControlMapping, w1: Step, w2: Step, w3: Step)
    requires EffectiveWrite(Primed(s), m, AddressLow, 0, w1)
    requires EffectiveWrite(w1.shield, m, AddressHigh, 0, w2)
    requires EffectiveWrite(w2.shield, m, Control, 0, w3)
    ensures FreshlyReset(s, m, Step(w3.shield, w1.trace + w2.trace + w3.trace))
    ensures w3.shield.comMode == s.comMode
    ensures w3.shield.revision == s.revision
    ensures w3.shield.config == s.config
  {
    LowerEachStrobe(s.portB, w1.shield.portB, w2.shield.portB, w3.shield.portB);
    forall role: Role
      ensures Strobes(w1.trace + w2.trace + w3.trace, role) == 1
    {
      StrobesAppend(w1.trace, w2.trace, role);
      StrobesAppend(w1.trace + w2.trace, w3.trace, role);
    }
    forall role: Role
      ensures Shadow(w3.shield, role) == 0
    {
    }
  }

  /** `rurp_setup` without its debug, pin-mode and serial plumbing: the data
      pins drive, the revision is detected from the probe readings, PORTB
      takes its idle value, the latches are reset, the loaded configuration
      is installed and communication mode is entered. */
  function Setup(s: Shield, m: ControlMapping, digital: int, analog: int,
                 idlePortB: Byte, loaded: Config): (w: Step)
    ensures forall role: Role :: ReadRegister(w.shield, Mask(role)) == 0
    ensures forall role: Role :: Strobes(w.trace, role) == 1
    ensures w.shield.portB & !STROBE_MASKS == idlePortB & !STROBE_MASKS
    ensures w.shield.portB & STROBE_MASKS == 0
    ensures HostOwnsLink(w.shield) && w.shield.ddrD == 0xFE
    ensures w.shield.revision == DetectRevision(digital, analog)
    ensures w.shield.config == loaded
    ensures loaded.hardwareRevision == REVISION_UNSET ==>
              GetHardwareRevision(w.shield) == DetectRevision(digital, analog)
    ensures w.trace[|w.trace| - 1] == LinkOpened
  {
    var probed := SetDataAsOutput(s).(revision := DetectRevision(digital, analog), portB := idlePortB);
    var reset := ResetShadows(probed, m);
    var linked := SetCommunicationMode(reset.shield.(config := loaded));
    SetupSteps(probed, m, reset, loaded, linked);
    Step(linked.shield, reset.trace + linked.trace)
  }

  /** Entering communication mode after the reset keeps what the reset
      established. */
  lemma SetupSteps(probed: Shield, m: ControlMapping, reset: Step, loaded: Config, linked: Step)
    requires reset == ResetShadows(probed, m)
    requires linked == SetCommunicationMode(reset.shield.(config := loaded))
    ensures forall role: Role :: ReadRegister(linked.shield, Mask(role)) == 0
    ensures forall role: Role :: Strobes(reset.trace + linked.trace, role) == 1
    ensures linked.shield.portB & !STROBE_MASKS == probed.portB & !STROBE_MASKS
    ensures linked.shield.portB & STROBE_MASKS == 0
    ensures HostOwnsLink(linked.shield) && linked.shield.ddrD == 0xFE
    ensures linked.shield.revision == probed.revision
    ensures linked.shield.config == loaded
    ensures (reset.trace + linked.trace)[|reset.trace + linked.trace| - 1] == LinkOpened
  {
    SetupLatches(probed, m, reset, loaded, linked);
    SetupPins(probed, m, reset, loaded, linked);
  }

  /** After setup every shadow is zero and each latch was strobed once. */
  lemma SetupLatches(probed: Shield, m: ControlMapping, reset: Step, loaded: Config, linked: Step)
    requires reset == ResetShadows(probed, m)
    requires linked == SetCommunicationMode(reset.shield.(config := loaded))
    ensures forall role: Role :: ReadRegister(linked.shield, Mask(role)) == 0
    ensures forall role: Role :: Strobes(reset.trace + linked.trace, role) == 1
  {
    forall role: Role
      ensures Strobes(reset.trace + linked.trace, role) == 1
      ensures ReadRegister(linked.shield, Mask(role)) == 0
    {
      SetupLatch(probed, m, reset, loaded, linked, role);
    }
  }

  /** `SetupLatches` for one latch: the mode switch neither strobes it nor
      changes its shadow. */
  lemma SetupLatch(probed: Shield, m: ControlMapping, reset: Step, loaded: Config, linked: Step, role: Role)
    requires reset == ResetShadows(probed, m)
    requires linked == SetCommunicationMode(reset.shield.(config := loaded))
    ensures ReadRegister(linked.shield, Mask(role)) == 0
    ensures Strobes(reset.trace + linked.trace, role) == 1
  {
    StrobesAppend(reset.trace, linked.trace, role);
    assert Strobes(linked.trace, role) == 0;
    assert Shadow(reset.shield, role) == 0;
    assert Shadow(linked.shield, role) == 0;
  }

  /** After setup the strobe bits are low over the idle PORTB value, the host
      owns the link, and the detected revision and loaded configuration are
      in place. */
  lemma SetupPins(probed: Shield, m: ControlMapping, reset: Step, loaded: Config, linked: Step)
    requires reset == ResetShadows(probed, m)
    requires linked == SetCommunicationMode(reset.shield.(config := loaded))
    ensures linked.shield.portB & !STROBE_MASKS == probed.portB & !STROBE_MASKS
    ensures linked.shield.portB & STROBE_MASKS == 0
    ensures HostOwnsLink(linked.shield) && linked.shield.ddrD == 0xFE
    ensures linked.shield.revision == probed.revision
    ensures linked.shield.config == loaded
    ensures (reset.trace + linked.trace)[|reset.trace + linked.trace| - 1] == LinkOpened
  {
    assert reset.shield.ddrD == 0xFF;
    assert linked.shield.ddrD & !LINK_PIN == 0xFE;
  }
}

=== FILE: bus.dfy ===
/** The register bus: the shared 8-bit data port (PORTD with its direction
    register DDRD), the three latch strobe lines on PORTB, and the shadow
    copies that let a write skip latches that already hold the value. */
module RegisterBus {
  import opened Bits
  import opened Options
  import opened Board
  import opened ShieldState

  /** `rurp_set_data_as_output`: every data pin drives. */
  function SetDataAsOutput(s: Shield): (r: Shield)
    ensures r.ddrD == 0xFF
    ensures r.(ddrD := s.ddrD) == s
  {
    s.(ddrD := 0xFF)
  }

  /** `rurp_set_data_as_input`: every data pin is released. */
  function SetDataAsInput(s: Shield): (r: Shield)
    ensures r.ddrD == 0x00
    ensures r.(ddrD := s.ddrD) == s
  {
    s.(ddrD := 0x00)
  }

  /** `rurp_write_data_buffer`: takes the data pins as outputs and puts the
      byte on them. */
  function WriteDataBuffer(s: Shield, data: Byte): (w: Step)
    ensures w.shield.ddrD == 0xFF && w.shield.portD == data
    ensures w.shield.(ddrD := s.ddrD, portD := s.portD) == s
    ensures w.trace == [Drive(data)]
  {
    Step(SetDataAsOutput(s).(portD := data), [Drive(data)])
  }

  /** `rurp_set_control_pin`: a non-zero state raises the pin bits of PORTB,
      zero lowers them; no other PORTB bit moves. */
  function SetControlPin(s: Shield, pin: Byte, state: Byte): (r: Shield)
    ensures state != 0 ==> r.portB & pin == pin
    ensures state == 0 ==> r.portB & pin == 0
    ensures r.portB & !pin == s.portB & !pin
    ensures r.(portB := s.portB) == s
  {
    if state != 0 then s.(portB := Raise(s.portB, pin))
    else s.(portB := Lower(s.portB, pin))
  }

  /** The write-skip test: the latch's shadow already holds the value. The
      8-bit address shadows compare with the low byte of the value, the
      control shadow with all of it. */
  predicate ShadowHolds(s: Shield, role: Role, data: Word) {
    match role
    case AddressLow => s.lsb == Low8(data)
    case AddressHigh => s.msb == Low8(data)
    case Control => s.control == data
  }

  /** The shield with one shadow replaced by what it keeps of `data`. */
  function WithShadow(s: Shield, role: Role, data: Word): (r: Shield)
    ensures Shadow(r, role) == Stored(role, data)
    ensures forall other: Role :: other != role ==> Shadow(r, other) == Shadow(s, other)
    ensures r.(lsb := s.lsb, msb := s.msb, control := s.control) == s
  {
    match role
    case AddressLow => s.(lsb := Low8(data))
    case AddressHigh => s.(msb := Low8(data))
    case Control => s.(control := data)
  }

  /** The byte put on the data bus for a write: the low byte of the value for
      an address latch, the low byte of the revision-mapped value for the
      control latch. */
  function BusByte(m: ControlMapping, role: Role, data: Word): Byte {
    Low8(if role == Control then Physical(m, data) else data)
  }

  /** Only the written latch's shadow changes, and it keeps what it stores of
      the value. */
  predicate ShadowEffect(s: Shield, role: Role, data: Word, r: Shield) {
    && Shadow(r, role) == Stored(role, data)
    && (forall other: Role :: other != role ==> Shadow(r, other) == Shadow(s, other))
  }

  /** The data pins drive the bus byte, the latch's strobe bit ends low with
      every other PORTB bit as it was, and mode, revision and configuration
      stay. */
  predicate PortEffect(s: Shield, m: ControlMapping, role: Role, data: Word, r: Shield) {
    && r.ddrD == 0xFF
    && r.portD == BusByte(m, role, data)
    && r.portB & Mask(role) == 0
    && r.portB & !Mask(role) == s.portB & !Mask(role)
    && r.comMode == s.comMode
    && r.revision == s.revision
    && r.config == s.config
  }

  /** The trace drives the bus byte, then pulses that latch, pulses no latch
      but that one and only once, and settles exactly when VPP is switched
      off on the control latch. */
  predicate TraceEffect(s: Shield, m: ControlMapping, role: Role, data: Word, t: seq<Event>) {
    && |t| >= 2
    && t[0] == Drive(BusByte(m, role, data))
    && t[1] == Strobe(role)
    && (forall r: Role :: Strobes(t, r) == (if r == role then 1 else 0))
    && (Settle in t <==> role == Control && VppFalling(s.control, data))
  }

  /** What a write that is not skipped does. */
  predicate EffectiveWrite(s: Shield, m: ControlMapping, role: Role, data: Word, w: Step) {
    && ShadowEffect(s, role, data, w.shield)
    && PortEffect(s, m, role, data, w.shield)
    && TraceEffect(s, m, role, data, w.trace)
  }

  /** The trace of an effective write: drive, strobe, and a settle wait when
      asked for. */
  function LatchTrace(b: Byte, role: Role, settle: bool): (t: seq<Event>)
    ensures |t| == (if settle then 3 else 2) && t[0] == Drive(b) && t[1] == Strobe(role)
    ensures forall r: Role :: Strobes(t, r) == (if r == role then 1 else 0)
    ensures Settle in t <==> settle
  {
    var t := [Drive(b), Strobe(role)] + (if settle then [Settle] else []);
    assert t[1..] == [Strobe(role)] + (if settle then [Settle] else []);
    assert t[1..][1..] == (if settle then [Settle] else []);
    t
  }

  /** The strobe pulse `PORTB |= mask; PORTB &= ~mask;`: the mask bits end
      low, every other bit ends as it was. */
  function Pulse(portB: Byte, mask: Byte): (r: Byte)
    ensures r & mask == 0
    ensures r & !mask == portB & !mask
  {
    var raised := Raise(portB, mask);
    Lower(raised, mask)
  }

  /** The part of `rurp_write_to_register` after the skip test: update the
      shadow, drive the (mapped) byte, pulse the strobe bit, settle if VPP was
      switched off. The trace holds nothing else: two events, or three with
      the settle wait. */
  function Latch(s: Shield, m: ControlMapping, role: Role, data: Word): (w: Step)
    requires !ShadowHolds(s, role, data)
    ensures EffectiveWrite(s, m, role, data, w)
    ensures |w.trace| == (if role == Control && VppFalling(s.control, data) then 3 else 2)
  {
    var settle := role == Control && VppFalling(s.control, data);
    var driven := WriteDataBuffer(WithShadow(s, role, data), BusByte(m, role, data));
    var w := Step(driven.shield.(portB := Pulse(driven.shield.portB, Mask(role))),
                  LatchTrace(BusByte(m, role, data), role, settle));
    LatchEffective(s, m, role, data, driven, w);
    w
  }

  /** The facts `Latch` promises, gathered from its parts. */
  lemma LatchEffective(s: Shield, m: ControlMapping, role: Role, data: Word, driven: Step, w: Step)
    requires driven == WriteDataBuffer(WithShadow(s, role, data), BusByte(m, role, data))
    requires w.shield == driven.shield.(portB := Pulse(driven.shield.portB, Mask(role)))
    requires w.trace == LatchTrace(BusByte(m, role, data), role, role == Control && VppFalling(s.control, data))
    ensures EffectiveWrite(s, m, role, data, w)
  {
    var shadowed := WithShadow(s, role, data);
    assert ShadowEffect(s, role, data, w.shield) by {
      assert forall r: Role :: Shadow(w.shield, r) == Shadow(shadowed, r);
    }
    assert PortEffect(s, m, role, data, w.shield) by {
      assert shadowed.portB == s.portB && shadowed.comMode == s.comMode;
      assert shadowed.revision == s.revision && shadowed.config == s.config;
      assert driven.shield.portB == s.portB;
    }
  }

  /** `rurp_write_to_register`. An unknown selector, or a value the latch's
      shadow already holds, changes nothing and emits nothing; any other
      write is an effective write of the selected latch, whose trace is the
      drive, the strobe and at most one settle wait. */
  function WriteRegister(s: Shield, m: ControlMapping, reg: Byte, data: Word): (w: Step)
    ensures RoleOf(reg) == None ==> w == Step(s, [])
    ensures RoleOf(reg).Some? ==> (w.trace == [] <==> ShadowHolds(s, RoleOf(reg).value, data))
    ensures w.trace == [] ==> w.shield == s
    ensures RoleOf(reg).Some? && !ShadowHolds(s, RoleOf(reg).value, data) ==>
              EffectiveWrite(s, m, RoleOf(reg).value, data, w)
    ensures RoleOf(reg).Some? && !ShadowHolds(s, RoleOf(reg).value, data) ==>
              |w.trace| == (if reg == CONTROL_REGISTER && VppFalling(s.control, data) then 3 else 2)
  {
    match RoleOf(reg)
    case None => Step(s, [])
    case Some(role) =>
      if ShadowHolds(s, role, data) then Step(s, []) else Latch(s, m, role, data)
  }

  /** Writing a value a known latch's shadow does not hold is an effective
      write of that latch. */
  lemma WriteEffective(s: Shield, m: ControlMapping, role: Role, data: Word)
    requires !ShadowHolds(s, role, data)
    ensures EffectiveWrite(s, m, role, data, WriteRegister(s, m, Mask(role), data))
  {
  }

  /** `rurp_read_from_register`: the shadow of the selected latch, or zero
      for an unknown selector. Reading never touches the state. */
  function ReadRegister(s: Shield, reg: Byte): (v: Word)
    ensures RoleOf(reg) == None ==> v == 0
    ensures forall role: Role :: reg == Mask(role) ==> v == Shadow(s, role)
  {
    match RoleOf(reg)
    case None => 0
    case Some(role) => Shadow(s, role)
  }
}

=== FILE: latches.dfy ===
/** The external latch chain as an observer of the event trace: the data bus
    holds the last driven byte and a strobe copies it into the pulsed latch.
    The shadows the firmware keeps are meant to mirror these latches; this
    module proves that they do from the reset on, whatever the latches held
    at power-on, and across any session of bus operations. */
module Latches {
  import opened Bits
  import opened Board
  import opened ShieldState
  import opened RegisterBus
  import opened ModeControl
  import opened Revision
  import opened Boot

  /** Contents of the data bus and of the three external latches. */
  datatype Bank = Bank(bus: Byte, low: Byte, high: Byte, control: Byte)

  function Latched(b: Bank, role: Role): Byte {
    match role
    case AddressLow => b.low
    case AddressHigh => b.high
    case Control => b.control
  }

  /** One event's effect on the latch chain. */
  function Capture(b: Bank, e: Event): Bank {
    match e
    case Drive(v) => b.(bus := v)
    case Strobe(AddressLow) => b.(low := b.bus)
    case Strobe(AddressHigh) => b.(high := b.bus)
    case Strobe(Control) => b.(control := b.bus)
    case _ => b
  }

  /** The latch chain after a whole trace. A latch that is never strobed
      keeps its contents. */
  function Observe(b: Bank, trace: seq<Event>): (r: Bank)
    ensures forall role: Role :: Strobes(trace, role) == 0 ==> Latched(r, role) == Latched(b, role)
    decreases |trace|
  {
    if trace == [] then b else Observe(Capture(b, trace[0]), trace[1..])
  }

  /** Observing two traces in turn is observing their concatenation. */
  lemma {:induction false} ObserveAppend(b: Bank, t1: seq<Event>, t2: seq<Event>)
    ensures Observe(b, t1 + t2) == Observe(Observe(b, t1), t2)
    decreases |t1|
  {
    if t1 == [] {
      assert t1 + t2 == t2;
    } else {
      assert (t1 + t2)[0] == t1[0];
      assert (t1 + t2)[1..] == t1[1..] + t2;
      ObserveAppend(Capture(b, t1[0]), t1[1..], t2);
    }
  }

  /** The byte a latch should physically hold according to its shadow: the
      address bytes as they are, the control latch as the revision-mapped
      low byte of the logical control value. */
  function Expected(s: Shield, m: ControlMapping, role: Role): Byte {
    match role
    case AddressLow => s.lsb
    case AddressHigh => s.msb
    case Control => Low8(Physical(m, s.control))
  }

  /** Every shadow describes what its latch physically holds. */
  predicate Coherent(s: Shield, m: ControlMapping, b: Bank) {
    forall role: Role :: Latched(b, role) == Expected(s, m, role)
  }

  /** A trace that begins by driving a byte and strobing one latch, and
      strobes it nowhere else, leaves that byte in the latch and every other
      latch untouched. */
  lemma LatchOwn(b: Bank, trace: seq<Event>, role: Role, v: Byte)
    requires |trace| >= 2 && trace[0] == Drive(v) && trace[1] == Strobe(role)
    requires forall r: Role :: Strobes(trace, r) == (if r == role then 1 else 0)
    ensures Latched(Observe(b, trace), role) == v
    ensures forall other: Role :: other != role ==> Latched(Observe(b, trace), other) == Latched(b, other)
  {
    var head := trace[..2];
    assert trace == head + trace[2..];
    assert head[1..] == [Strobe(role)];
    assert head[1..][1..] == [];
    forall r: Role
      ensures Strobes(trace[2..], r) == 0
    {
      StrobesAppend(head, trace[2..], r);
    }
    ObserveAppend(b, head, trace[2..]);
  }

  /** An effective write makes the written latch agree with its new shadow
      and keeps the agreement, or disagreement, of the other two. */
  lemma EffectiveWriteLatches(s: Shield, m: ControlMapping, b: Bank, role: Role, data: Word, w: Step)
    requires EffectiveWrite(s, m, role, data, w)
    ensures Latched(Observe(b, w.trace), role) == Expected(w.shield, m, role)
    ensures forall other: Role :: other != role ==>
              (Latched(Observe(b, w.trace), other) == Expected(w.shield, m, other) <==>
               Latched(b, other) == Expected(s, m, other))
  {
    LatchOwn(b, w.trace, role, BusByte(m, role, data));
    forall other: Role
      ensures Expected(w.shield, m, other) ==
              (if other == role then BusByte(m, role, data) else Expected(s, m, other))
    {
      ExpectedAfterWrite(s, m, role, data, w, other);
    }
  }

  /** What an effective write's shadow update does to the expected latch
      contents. */
  lemma ExpectedAfterWrite(s: Shield, m: ControlMapping, role: Role, data: Word, w: Step, other: Role)
    requires ShadowEffect(s, role, data, w.shield)
    ensures Expected(w.shield, m, other) ==
            (if other == role then BusByte(m, role, data) else Expected(s, m, other))
  {
    var before := Shadow(s, other);
    var after := Shadow(w.shield, other);
    if other == role {
      assert after == Stored(role, data);
    } else {
      assert after == before;
    }
    match other
    case AddressLow =>
      WidenInjective(w.shield.lsb, if other == role then Low8(data) else s.lsb);
    case AddressHigh =>
      WidenInjective(w.shield.msb, if other == role then Low8(data) else s.msb);
    case Control =>
  }

  /** `rurp_write_to_register` keeps the shadows coherent with the latches. */
  lemma WriteKeepsCoherent(s: Shield, m: ControlMapping, b: Bank, reg: Byte, data: Word)
    requires Coherent(s, m, b)
    ensures Coherent(WriteRegister(s, m, reg, data).shield, m,
                     Observe(b, WriteRegister(s, m, reg, data).trace))
  {
    var w := WriteRegister(s, m, reg, data);
    if w.trace != [] {
      EffectiveWriteLatches(s, m, b, RoleOf(reg).value, data, w);
    }
  }

  /** After the reset sequence the shadows describe the latches, whatever the
      latches held before: the sentinel makes every write of zero effective. */
  lemma ResetMakesCoherent(s: Shield, m: ControlMapping, b: Bank)
    ensures Coherent(ResetShadows(s, m).shield, m, Observe(b, ResetShadows(s, m).trace))
  {
    ResetWritesEffective(s, m);
    var w1, w2, w3 := ResetLow(s, m), ResetHigh(s, m), ResetControl(s, m);
    ThreeWritesCoherent(Primed(s), m, b, w1, w2, w3);
  }

  /** Effective writes of the three latches in turn leave every latch
      agreeing with its shadow. */
  lemma ThreeWritesCoherent(s: Shield, m: ControlMapping, b: Bank, w1: Step, w2: Step, w3: Step)
    requires EffectiveWrite(s, m, AddressLow, 0, w1)
    requires EffectiveWrite(w1.shield, m, AddressHigh, 0, w2)
    requires EffectiveWrite(w2.shield, m, Control, 0, w3)
    ensures Coherent(w3.shield, m, Observe(b, w1.trace + w2.trace + w3.trace))
  {
    var b1 := Observe(b, w1.trace);
    var b2 := Observe(b1, w2.trace);
    var b3 := Observe(b2, w3.trace);
    EffectiveWriteLatches(s, m, b, AddressLow, 0, w1);
    EffectiveWriteLatches(w1.shield, m, b1, AddressHigh, 0, w2);
    EffectiveWriteLatches(w2.shield, m, b2, Control, 0, w3);
    ObserveAppend(b, w1.trace, w2.trace);
    ObserveAppend(b, w1.trace + w2.trace, w3.trace);
    assert Latched(b3, AddressLow) == Expected(w3.shield, m, AddressLow);
    assert Latched(b3, AddressHigh) == Expected(w3.shield, m, AddressHigh);
  }

  /** One operation a caller may issue on the bus side of the shield. */
  datatype BusOp =
    | WriteOp(reg: Byte, data: Word)
    | BufferOp(value: Byte)
    | OutputOp
    | InputOp
    | ProgrammerOp
    | CommunicationOp

  function Apply(s: Shield, m: ControlMapping, op: BusOp): Step {
    match op
    case WriteOp(reg, data) => WriteRegister(s, m, reg, data)
    case BufferOp(value) => WriteDataBuffer(s, value)
    case OutputOp => Step(SetDataAsOutput(s), [])
    case InputOp => Step(SetDataAsInput(s), [])
    case ProgrammerOp => SetProgrammerMode(s)
    case CommunicationOp => SetCommunicationMode(s)
  }

  /** A session: the operations applied in order, their traces concatenated. */
  function Run(s: Shield, m: ControlMapping, ops: seq<BusOp>): Step
    decreases |ops|
  {
    if ops == [] then Step(s, [])
    else
      var before := Run(s, m, ops[..|ops| - 1]);
      var last := Apply(before.shield, m, ops[|ops| - 1]);
      Step(last.shield, before.trace + last.trace)
  }

  /** No single operation breaks coherence: only writes strobe, and they
      keep it. */
  lemma ApplyKeepsCoherent(s: Shield, m: ControlMapping, b: Bank, op: BusOp)
    requires Coherent(s, m, b)
    ensures Coherent(Apply(s, m, op).shield, m, Observe(b, Apply(s, m, op).trace))
  {
    var w := Apply(s, m, op);
    match op
    case WriteOp(reg, data) => WriteKeepsCoherent(s, m, b, reg, data);
    case BufferOp(value) =>
      assert w.trace == [Drive(value)];
      assert w.trace[1..] == [];
    case OutputOp =>
    case InputOp =>
    case ProgrammerOp =>
      assert w.trace[1..] == [];
    case CommunicationOp =>
      assert w.trace[1..] == [];
  }

  /** Coherence holds across any session that starts coherent. */
  lemma {:induction false} RunKeepsCoherent(s: Shield, m: ControlMapping, b: Bank, ops: seq<BusOp>)
    requires Coherent(s, m, b)
    ensures Coherent(Run(s, m, ops).shield, m, Observe(b, Run(s, m, ops).trace))
    decreases |ops|
  {
    if ops != [] {
      var before := Run(s, m, ops[..|ops| - 1]);
      RunKeepsCoherent(s, m, b, ops[..|ops| - 1]);
      ApplyKeepsCoherent(before.shield, m, Observe(b, before.trace), ops[|ops| - 1]);
      ObserveAppend(b, before.trace, Apply(before.shield, m, ops[|ops| - 1]).trace);
    }
  }

  /** From boot on, for any power-on latch contents and any later session of
      bus operations, every shadow describes its latch. */
  lemma BootThenSessionCoherent(s: Shield, m: ControlMapping, b: Bank, ops: seq<BusOp>)
    ensures var reset := ResetShadows(s, m);
            Coherent(Run(reset.shield, m, ops).shield, m,
                     Observe(b, reset.trace + Run(reset.shield, m, ops).trace))
  {
    var reset := ResetShadows(s, m);
    ResetMakesCoherent(s, m, b);
    RunKeepsCoherent(reset.shield, m, Observe(b, reset.trace), ops);
    ObserveAppend(b, reset.trace, Run(reset.shield, m, ops).trace);
  }

  /** A session never changes the detected revision or the configuration:
      no bus operation writes either. */
  lemma {:induction false} RunKeepsIdentity(s: Shield, m: ControlMapping, ops: seq<BusOp>)
    ensures Run(s, m, ops).shield.revision == s.revision
    ensures Run(s, m, ops).shield.config == s.config
    decreases |ops|
  {
    if ops != [] {
      RunKeepsIdentity(s, m, ops[..|ops| - 1]);
    }
  }

  /** The revision found at boot holds for the rest of the process: after
      setup and any later session, the physical revision is what detection
      found, and the reported revision is the loaded override when one is
      set and the detected revision otherwise. */
  lemma SessionRevision(s: Shield, m: ControlMapping, digital: int, analog: int,
                        idlePortB: Byte, loaded: Config, ops: seq<BusOp>)
    ensures var r := Run(Setup(s, m, digital, analog, idlePortB, loaded).shield, m, ops).shield;
            PhysicalRevision(r) == DetectRevision(digital, analog)
    ensures var r := Run(Setup(s, m, digital, analog, idlePortB, loaded).shield, m, ops).shield;
            GetHardwareRevision(r) ==
              (if loaded.hardwareRevision != REVISION_UNSET then loaded.hardwareRevision as int
               else DetectRevision(digital, analog))
  {
    RunKeepsIdentity(Setup(s, m, digital, analog, idlePortB, loaded).shield, m, ops);
  }
}

=== FILE: mode.dfy ===
/** Ownership of the shared data pins between the host serial link
    (communication mode) and the latch bus (programmer mode), and the log
    output that only reaches the host while the link is open. */
module ModeControl {
  import opened Bits
  import opened ShieldState

  /** DDRD bit of the serial receive pin shared with data bus bit 0. */
  const LINK_PIN: Byte := 0x01

  /** The host link owns the shared pin: the flag is set and the pin is an
      input. */
  predicate HostOwnsLink(s: Shield) {
    s.comMode && s.ddrD & LINK_PIN == 0
  }

  /** The bus owns the shared pin: the flag is clear and the pin drives. */
  predicate BusOwnsLink(s: Shield) {
    !s.comMode && s.ddrD & LINK_PIN == LINK_PIN
  }

  /** `rurp_set_communication_mode`: releases DDRD bit 0, opens the host
      link, and sets the communication flag. */
  function SetCommunicationMode(s: Shield): (w: Step)
    ensures HostOwnsLink(w.shield)
    ensures w.shield.ddrD & !LINK_PIN == s.ddrD & !LINK_PIN
    ensures w.shield.(comMode := s.comMode, ddrD := s.ddrD) == s
    ensures w.trace == [LinkOpened]
  {
    Step(s.(ddrD := Lower(s.ddrD, LINK_PIN), comMode := true), [LinkOpened])
  }

  /** `rurp_set_programmer_mode`: clears the communication flag, closes the
      host link, and makes DDRD bit 0 an output. */
  function SetProgrammerMode(s: Shield): (w: Step)
    ensures BusOwnsLink(w.shield)
    ensures w.shield.ddrD & !LINK_PIN == s.ddrD & !LINK_PIN
    ensures w.shield.(comMode := s.comMode, ddrD := s.ddrD) == s
    ensures w.trace == [LinkClosed]
  {
    Step(s.(comMode := false, ddrD := Raise(s.ddrD, LINK_PIN)), [LinkClosed])
  }

  /** `rurp_log` towards the host: one line while the communication flag is
      set, nothing otherwise. The state is not changed. */
  function Log(s: Shield, kind: string, msg: string): (out: seq<Event>)
    ensures out != [] <==> s.comMode
    ensures out != [] ==> out == [HostLog(kind, msg)]
  {
    if s.comMode then [HostLog(kind, msg)] else []
  }

  /** Entering programmer mode and going back to communication mode restores
      a state in which the host owned the link. */
  lemma ProgrammerThenCommunication(s: Shield)
    requires HostOwnsLink(s)
    ensures SetCommunicationMode(SetProgrammerMode(s).shield).shield == s
  {
  }

  /** Entering communication mode and going back to programmer mode restores
      a state in which the bus owned the link. */
  lemma CommunicationThenProgrammer(s: Shield)
    requires BusOwnsLink(s)
    ensures SetProgrammerMode(SetCommunicationMode(s).shield).shield == s
  {
  }

  /** Logging reaches the host after entering communication mode and never
      after entering programmer mode. */
  lemma LogFollowsMode(s: Shield, kind: string, msg: string)
    ensures Log(SetCommunicationMode(s).shield, kind, msg) == [HostLog(kind, msg)]
    ensures Log(SetProgrammerMode(s).shield, kind, msg) == []
  {
  }
}

=== FILE: properties.dfy ===
/** Properties of the register bus that relate several calls: repeated
    writes, reads after writes, the settle rule, independence of the skip
    test from the revision mapping, and the ownership conflict a bus write in
    communication mode creates. */
module BusProperties {
  import opened Bits
  import opened Board
  import opened ShieldState
  import opened RegisterBus
  import opened ModeControl

  /** After a write, the selected latch's shadow holds the written value. */
  lemma WriteMakesShadowHold(s: Shield, m: ControlMapping, role: Role, data: Word)
    ensures ShadowHolds(WriteRegister(s, m, Mask(role), data).shield, role, data)
  {
    var r := WriteRegister(s, m, Mask(role), data).shield;
    if !ShadowHolds(s, role, data) {
      assert Shadow(r, role) == Stored(role, data);
      match role
      case AddressLow => WidenInjective(r.lsb, Low8(data));
      case AddressHigh => WidenInjective(r.msb, Low8(data));
      case Control =>
    }
  }

  /** Writing the same value twice: the second write changes nothing and
      emits nothing, so the pair strobes the latch at most once, and exactly
      once when the first write was not skipped. No other latch is strobed. */
  lemma RepeatedWriteStrobesOnce(s: Shield, m: ControlMapping, reg: Byte, data: Word)
    ensures var first := WriteRegister(s, m, reg, data);
            WriteRegister(first.shield, m, reg, data) == Step(first.shield, [])
    ensures var first := WriteRegister(s, m, reg, data);
            var second := WriteRegister(first.shield, m, reg, data);
            forall role: Role ::
              Strobes(first.trace + second.trace, role) ==
                (if reg == Mask(role) && !ShadowHolds(s, role, data) then 1 else 0)
  {
    var first := WriteRegister(s, m, reg, data);
    var second := WriteRegister(first.shield, m, reg, data);
    if RoleOf(reg).Some? {
      WriteMakesShadowHold(s, m, RoleOf(reg).value, data);
    }
    assert second.trace == [];
    assert first.trace + second.trace == first.trace;
  }

  /** A read after a write of a known latch returns what the latch keeps of
      the value: all of it for the control register, its low byte for an
      address latch, so it gives back the value itself exactly when that fits
      the latch. The other latches read as before. */
  lemma ReadAfterWrite(s: Shield, m: ControlMapping, role: Role, data: Word)
    ensures ReadRegister(WriteRegister(s, m, Mask(role), data).shield, Mask(role)) ==
            (if role == Control then data else Widen(Low8(data)))
    ensures forall other: Role :: other != role ==>
              ReadRegister(WriteRegister(s, m, Mask(role), data).shield, Mask(other)) ==
              ReadRegister(s, Mask(other))
    ensures ReadRegister(WriteRegister(s, m, Mask(role), data).shield, Mask(role)) == data <==>
            role == Control || data <= 0xFF
  {
    var r := WriteRegister(s, m, Mask(role), data).shield;
    Low8Lossless(data);
    if ShadowHolds(s, role, data) {
      match role
      case AddressLow => assert Shadow(s, role) == Widen(Low8(data));
      case AddressHigh => assert Shadow(s, role) == Widen(Low8(data));
      case Control =>
    }
  }

  /** A selector that names no latch: the write changes nothing and emits
      nothing, and the read returns zero. */
  lemma UnknownSelector(s: Shield, m: ControlMapping, reg: Byte, data: Word)
    requires forall role: Role :: reg != Mask(role)
    ensures WriteRegister(s, m, reg, data) == Step(s, [])
    ensures ReadRegister(s, reg) == 0
  {
  }

  /** The settle wait happens exactly for an effective control write that
      switches VPP off; address writes and skipped writes never wait. */
  lemma SettleExactlyOnVppOff(s: Shield, m: ControlMapping, reg: Byte, data: Word)
    ensures Settle in WriteRegister(s, m, reg, data).trace <==>
            (reg == CONTROL_REGISTER && s.control != data
             && s.control & P1_VPP_ENABLE != 0 && data & P1_VPP_ENABLE == 0)
  {
  }

  /** The skip decision and the resulting shadows depend only on logical
      values, not on the board's control translation. */
  lemma SkipIgnoresMapping(s: Shield, m1: ControlMapping, m2: ControlMapping, reg: Byte, data: Word)
    ensures (WriteRegister(s, m1, reg, data).trace == []) ==
            (WriteRegister(s, m2, reg, data).trace == [])
    ensures forall role: Role ::
              Shadow(WriteRegister(s, m1, reg, data).shield, role) ==
              Shadow(WriteRegister(s, m2, reg, data).shield, role)
  {
  }

  /** Nothing stops a bus write while the host link owns the shared pin: an
      effective write turns every data pin into an output while the
      communication flag stays set, so neither side owns the pin cleanly. */
  lemma WriteInCommunicationMode(s: Shield, m: ControlMapping, role: Role, data: Word)
    requires HostOwnsLink(s)
    requires !ShadowHolds(s, role, data)
    ensures var r := WriteRegister(s, m, Mask(role), data).shield;
            r.comMode && r.ddrD & LINK_PIN == LINK_PIN
    ensures var r := WriteRegister(s, m, Mask(role), data).shield;
            !HostOwnsLink(r) && !BusOwnsLink(r)
  {
    WriteEffective(s, m, role, data);
  }

  /** Setting a control pin twice: the last state wins. */
  lemma ControlPinLastWins(s: Shield, pin: Byte, first: Byte, second: Byte)
    ensures SetControlPin(SetControlPin(s, pin, first), pin, second) == SetControlPin(s, pin, second)
  {
  }

  /** A control-pin change leaves every shadow and the data port alone. */
  lemma ControlPinKeepsShadows(s: Shield, pin: Byte, state: Byte)
    ensures forall role: Role :: Shadow(SetControlPin(s, pin, state), role) == Shadow(s, role)
    ensures SetControlPin(s, pin, state).portD == s.portD
  {
  }
}

=== FILE: revision.dfy ===
/** Which shield hardware revision the firmware believes it runs on: the
    boot-time decision on two probe readings, and the configured override
    that takes precedence over it. */
module Revision {
  import opened Board
  import opened ShieldState

  /** The boot-time decision: a low digital probe means revision 2; a high
      one means revision 1 when the analog probe reads below the threshold
      and revision 0 otherwise; any other digital reading is unknown. */
  function DetectRevision(digital: int, analog: int): (rev: int)
    ensures rev == REVISION_2 <==> digital == 0
    ensures rev == REVISION_1 <==> digital == 1 && analog < REVISION_1_THRESHOLD
    ensures rev == REVISION_0 <==> digital == 1 && analog >= REVISION_1_THRESHOLD
    ensures rev == UNKNOWN_REVISION <==> digital != 0 && digital != 1
  {
    match digital
    case 1 => if analog < REVISION_1_THRESHOLD then REVISION_1 else REVISION_0
    case 0 => REVISION_2
    case _ => UNKNOWN_REVISION
  }

  /** `rurp_get_physical_hardware_revision`: the revision found at boot,
      unchanged. */
  function PhysicalRevision(s: Shield): (rev: int)
    ensures rev == s.revision
  {
    s.revision
  }

  /** `rurp_get_hardware_revision`: the configured revision when one is set
      (any value below `REVISION_UNSET`), the detected one otherwise. */
  function GetHardwareRevision(s: Shield): (rev: int)
    ensures s.config.hardwareRevision != REVISION_UNSET ==>
              rev == s.config.hardwareRevision as int && 0 <= rev < REVISION_UNSET as int
    ensures s.config.hardwareRevision == REVISION_UNSET ==> rev == PhysicalRevision(s)
  {
    if s.config.hardwareRevision < REVISION_UNSET then s.config.hardwareRevision as int
    else PhysicalRevision(s)
  }

  /** With an override configured, the reported revision does not depend on
      what detection found; without one, it is exactly what detection found. */
  lemma OverridePrecedence(s: Shield, detected: int)
    ensures s.config.hardwareRevision != REVISION_UNSET ==>
              GetHardwareRevision(s.(revision := detected)) == GetHardwareRevision(s)
    ensures s.config.hardwareRevision == REVISION_UNSET ==>
              GetHardwareRevision(s.(revision := detected)) == detected
  {
  }

  /** Before the configuration is loaded its override field is still
      zero-initialised, which counts as a configured revision: until then the
      reported revision is 0 whatever detection found. Nothing else uses this
      lemma: it documents that the reset writes of `rurp_setup`, which run
      before the configuration is loaded, run while the override reads 0. */
  lemma UnloadedConfigReportsZero(s: Shield)
    requires s.config == POWER_ON.config
    ensures GetHardwareRevision(s) == 0
  {
  }
}

=== FILE: state.dfy ===
/** The shield's mutable state as one immutable record, and the observable
    events an operation produces. Every operation of the model takes a
    `Shield` and returns the next one together with its event trace. */
module ShieldState {
  import opened Bits
  import opened Board

  /** The persisted configuration as this layer reads it: only the
      hardware-revision override (`REVISION_UNSET` when absent). */
  datatype Config = Config(hardwareRevision: Byte)

  /** Shadows of the three write-only latches, the AVR ports the layer
      drives, the communication-mode flag, the detected revision and the
      loaded configuration. */
  datatype Shield = Shield(
    lsb: Byte,
    msb: Byte,
    control: Word,
    portB: Byte,
    portD: Byte,
    ddrD: Byte,
    comMode: bool,
    revision: int,
    config: Config)

  /** The state before boot: every global zero-initialised except the
      communication flag, which starts true, and the revision, which starts
      at `BOOT_REVISION`. */
  const POWER_ON: Shield :=
    Shield(0, 0, 0, 0, 0, 0, true, BOOT_REVISION, Config(0))

  /** What the outside world can observe of an operation. `Drive` puts a byte
      on the data bus, `Strobe` pulses a latch's select line, `Settle` is the
      wait after VPP is switched off, `LinkOpened`/`LinkClosed` start and stop
      the host serial link, `HostLog` is one line sent to the host. */
  datatype Event =
    | Drive(value: Byte)
    | Strobe(role: Role)
    | Settle
    | LinkOpened
    | LinkClosed
    | HostLog(kind: string, msg: string)

  datatype Step = Step(shield: Shield, trace: seq<Event>)

  /** The shadow of a latch, as `rurp_read_from_register` returns it. */
  function Shadow(s: Shield, role: Role): (v: Word)
    ensures role != Control ==> v <= 0xFF
  {
    match role
    case AddressLow => Widen(s.lsb)
    case AddressHigh => Widen(s.msb)
    case Control => s.control
  }

  /** The value a latch's shadow keeps of a written value: the low byte for
      the 8-bit address shadows, all of it for the control register. */
  function Stored(role: Role, data: Word): (v: Word)
    ensures role == Control ==> v == data
    ensures role != Control ==> v <= 0xFF && Low8(v) == Low8(data)
  {
    if role == Control then data else Widen(Low8(data))
  }

  /** Number of strobe pulses of the given latch in a trace. */
  function Strobes(trace: seq<Event>, role: Role): (n: nat)
    ensures n <= |trace|
    ensures n == 0 <==> Strobe(role) !in trace
  {
    if trace == [] then 0
    else (if trace[0] == Strobe(role) then 1 else 0) + Strobes(trace[1..], role)
  }

  /** Strobe counts add up over consecutive traces. */
  lemma {:induction false} StrobesAppend(a: seq<Event>, b: seq<Event>, role: Role)
    ensures Strobes(a + b, role) == Strobes(a, role) + Strobes(b, role)
    decreases |a|
  {
    if a == [] {
      assert a + b == b;
    } else {
      assert (a + b)[1..] == a[1..] + b;
      StrobesAppend(a[1..], b, role);
    }
  }
}
